=== FILE: README.md ===
# Deferred logger: plugin pipeline and call-site rewrite, in Dafny

This project models the core of a small deferred-logging system for Vite
applications.

* **The logging engine** (`src/lib/createLogger.ts`). `createLogger` takes
  an ordered list of level plugins and one of modifier plugins, and builds a
  `logger` object. `logger.<level>(...)` and `logger.<level>.<modifier>(...)`
  do not log. Each returns a thunk. The request `{method, args}` is folded
  through the handlers for the level, and then through the handlers for the
  modifier when one was given. A handler that returns `null` silences the
  call. The thunk calls `console[method](...args)`, or does nothing.
* **The application logger** (`src/logger.ts`). It has the levels `debug`
  (kept only when the build mode contains `"dev"`) and `log` (passed
  through), and the modifiers `red` and `blue` (they style the first
  argument with `%c`).
* **The build-time rewrite** (`loggerPlugin.ts`). The Vite `transform` hook
  finds the import of the logger module and the names it binds. It scans the
  text after the import for those names. To every statement found there
  whose expression is a method call, it appends `()`, so the thunk runs at
  the call site.

Files (one module each):

| file | module | models |
|---|---|---|
| `wrappers.dfy` | `Wrappers` | `Option`, `Result` |
| `js_string.dfy` | `JsString` | `includes`, `slice`, `matchAll` with a `RegExp` built from an identifier |
| `create_logger.dfy` | `CreateLogger` | vocabulary, plugin fold, `applyPlugins`, thunk, two-tier dispatch |
| `logger_config.dfy` | `LoggerConfig` | the four handlers and the configured logger |
| `magic_text.dfy` | `MagicText` | the MagicString buffer (`prependLeft`, `toString`) |
| `logger_plugin.dfy` | `LoggerPlugin` | `transform` |

How the model is built:

* `applyPlugins` is the method `CreateLogger.ApplyPlugins`. It keeps the
  source's two `for` loops with `break`. It is proved equal to
  `CreateLogger.Evaluate`, a pure left fold that stops at the first null.
* The proxies become lookups. `GetLevel` and `GetModifier` are the two `get`
  traps. `Call` is a whole call expression. A thunk is the datatype
  `Action = Invoke(method, args) | Noop`. `Run` gives the console calls that
  running a thunk makes.
* `transform` is the method `LoggerPlugin.Transform`. It is split into the
  source's loops: import selection, specifier collection, occurrence scan,
  and the patch loop over a MagicString. Each loop is proved against a
  specification function.
* The lexer, parser, tree walkers and resolver are outside the model. Their
  answers for the file come in a `Host` value.

Behaviour of the code worth knowing:

* A plugin object with no handler for the requested name is not passed
  over. `levelPlugin?.[level](...)` calls `undefined` and throws. This is
  `Failure.NotAFunction`.
* The call-site search is not a word-level match. `new RegExp(name, "g")` is
  a substring search, so `logger` also matches inside `myloggers`. In a
  name, `$` is an end-of-input anchor. A name such as `$log` is therefore
  never found (`JsString.DollarNameExample`).
* Candidates are not deduplicated. `foundNodes` is a `Set`, but
  `findNodeAfter` returns a new `Found` object on every call, so the `Set`
  merges nothing. A statement found from two matches is patched twice. For
  example, with `import { logger as lg, logger as lgr }` both names match at
  the start of `lgr.f()`, which becomes `lgr.f()()()`
  (`LoggerPlugin.SharedMatchFoundTwice`,
  `LoggerPlugin.DuplicateCandidatePatchedTwice`).
* The import check drops the first `config.root.length` characters of the
  resolved id. It does not check that they are the root.
* A found node whose `expression` property is undefined is not skipped.
  Reading its `type` throws, which fails the file
  (`TransformError.ExpressionMissing`). A node whose `expression` is some
  other value, such as an arrow function's boolean, has no `type` and is
  passed over like any node that is not a member call.

## Model

| member | source | states |
|---|---|---|
| `CreateLogger.KeysIff` | src/lib/createLogger.ts:57-65 | a name is in the vocabulary exactly when some plugin object of the list has a handler for it |
| `CreateLogger.NewLogger` | src/lib/createLogger.ts:50-65 | the recognised levels (and modifiers) are exactly the names that some level (modifier) plugin handles; the plugin lists are kept as given |
| `CreateLogger.GetLevel` | src/lib/createLogger.ts:68-93 | the outer `get` trap returns the dispatcher for the accessed name exactly when it is a level, and falls through to ordinary lookup of that same name otherwise |
| `CreateLogger.GetModifier` | src/lib/createLogger.ts:76-87 | the dispatcher's `get` trap returns a styled log function for its level and the accessed name exactly when that name is a modifier, and falls through otherwise |
| `CreateLogger.Call` | src/lib/createLogger.ts:67-95 | a call expression dispatches exactly when the level is in the level vocabulary and the modifier, if any, in the modifier vocabulary; then its result is the evaluated request with that level, modifier and arguments |
| `CreateLogger.DispatchFollowsVocabulary` | src/lib/createLogger.ts:67-95 | `logger.<level>` and `logger.<level>.<modifier>` dispatch exactly when the names are in the vocabularies, and then evaluate the request; any other name falls through to ordinary lookup, at either tier |
| `CreateLogger.ApplyPlugins` | src/lib/createLogger.ts:98-138 | the two loops with `break` return exactly the thunk (or the TypeError) of the pure fold specification |
| `CreateLogger.NoPluginsBindsInitialConfig` | src/lib/createLogger.ts:107-110 | the starting config calls the level's own console method when the console has it, `debug` otherwise, with the arguments unchanged |
| `CreateLogger.FoldAppend` | src/lib/createLogger.ts:112-118 | plugins run in list order, each on the previous one's output with the same options: folding `ps + qs` is folding `qs` from where `ps` stopped |
| `CreateLogger.SuppressionIsFinal` | src/lib/createLogger.ts:113-116 | once a prefix of the chain returns null, the result is null whatever follows; later plugins are never called, and a later plugin without a handler cannot fail |
| `CreateLogger.LevelSilenceIsNoop` | src/lib/createLogger.ts:120-136 | a null from the level chain gives the no-op thunk, whatever the modifier plugins are; running it makes no console call |
| `CreateLogger.NoModifierIgnoresModifierPlugins` | src/lib/createLogger.ts:73-74 | a call without a modifier gives the same result whatever the modifier plugins are |
| `CreateLogger.MissingHandlerFails` | src/lib/createLogger.ts:112-127 | a plugin object without a handler for the name, reached with a non-null config, makes the call throw rather than being skipped |
| `CreateLogger.CompleteChainNeverFails` | src/lib/createLogger.ts:112-127 | when every plugin object has a handler for the name, the loop never throws |
| `CreateLogger.EvaluateBindsFinalConfig` | src/lib/createLogger.ts:130-137 | the thunk invokes exactly the final config's method with exactly its arguments (when the console has that method), and is the no-op exactly when the final config is null |
| `CreateLogger.Run` | src/lib/createLogger.ts:130-137 | running a thunk makes at most one console call: none for the no-op, the bound method with the bound arguments otherwise |
| `LoggerConfig.Debug` | src/logger.ts:7-18 | `debug` returns its config unchanged when the mode string contains `dev`, and null otherwise, also when the mode is absent |
| `LoggerConfig.Log` | src/logger.ts:19-27 | `log` always returns the config it was given |
| `LoggerConfig.Style` | src/logger.ts:33-46 | keeps the method; the first argument becomes `%c` plus the label's text, the style is inserted second, the rest follow in order; the length grows by one (from 0 to 2 when there was no argument) |
| `LoggerConfig.Red` | src/logger.ts:33-39 | never null; keeps the method and gives `["%c" + label, red style] + rest` |
| `LoggerConfig.Blue` | src/logger.ts:40-46 | never null; keeps the method and gives `["%c" + label, blue style] + rest` |
| `LoggerConfig.LevelPlugins` | src/logger.ts:5-29 | one level plugin object with exactly the handlers `debug` (which reads the build mode) and `log` |
| `LoggerConfig.ModifierPlugins` | src/logger.ts:31-48 | one modifier plugin object with exactly the handlers `red` and `blue` |
| `LoggerConfig.AppLogger` | src/logger.ts:3-49 | the exported logger's levels are exactly `debug` and `log`, its modifiers exactly `red` and `blue`, in every build mode |
| `LoggerConfig.NoCallFails` | src/logger.ts:5-48 | every level with or without a modifier of the vocabulary dispatches and never throws on a missing handler, given a console with `debug` |
| `LoggerConfig.DebugSilencedOutsideDev` | src/logger.ts:7-17 | outside a `dev` mode every `logger.debug` call, styled or not, gives the no-op thunk |
| `LoggerConfig.DebugRedInDev` | src/logger.ts:3-49 | in a `dev` mode `logger.debug.red(x)` binds `console.debug("%c" + x, "background-color: red; color: white")` |
| `LoggerConfig.LogPassesThrough` | src/logger.ts:19-27 | `logger.log(...args)` binds `console.log` (or `console.debug` when there is no `log`) with the arguments unchanged |
| `JsString.Includes` | src/logger.ts:12 | `includes` is true exactly when the text occurs at some index |
| `JsString.Slice` | loggerPlugin.ts:29 | `slice(k)` drops the first `k` characters, and all of them when `k` is at least the length |
| `JsString.LiteralMatches` | loggerPlugin.ts:54 | every reported index is an occurrence at or after the start; the indices increase and do not overlap |
| `JsString.LiteralMatchesComplete` | loggerPlugin.ts:54 | every occurrence is reported or lies inside a reported one (leftmost non-overlapping search) |
| `JsString.RegexMatches` | loggerPlugin.ts:54 | for names without `$` every result is a literal occurrence; with `$` there is at most one: the part before the first `$` ending the text, reported exactly when it does and only `$` follows that first `$` |
| `JsString.DollarNameExample` | loggerPlugin.ts:54 | the name `$log` is not found in `$log.debug(1)` though it occurs at index 0 |
| `LoggerPlugin.IsLoggerImport` | loggerPlugin.ts:27-29 | an import matches exactly when its specifier is a string that resolves to an id made of any `root.length` characters followed by the configured path (or no longer than the root, for an empty path) |
| `LoggerPlugin.FindLoggerImport` | loggerPlugin.ts:25-34 | the import loop with `break` returns the first import in lexer order that refers to the logger module |
| `LoggerPlugin.SelectImportFirst` | loggerPlugin.ts:26-34 | the selected import refers to the logger and no earlier one does; nothing is selected exactly when no import refers to it, so an unresolved specifier is skipped and is not an error |
| `LoggerPlugin.SelectionAsksOnlyStringSpecifiers` | loggerPlugin.ts:26-28 | the resolver is consulted only for string specifiers: resolvers that agree on those select the same import |
| `LoggerPlugin.NoRootPrefixCheck` | loggerPlugin.ts:29 | any resolved id whose tail after `root.length` characters is the configured path matches, whatever those characters are |
| `LoggerPlugin.CollectSpecifiers` | loggerPlugin.ts:43-49 | the walk collects the named-specifier local names, each once, in walk order |
| `LoggerPlugin.SpecifiersIff` | loggerPlugin.ts:43-49 | a name is searched for exactly when a named import specifier binds it; default and namespace imports add none; no name twice |
| `LoggerPlugin.FindCandidates` | loggerPlugin.ts:52-60 | the nested scan loops build exactly the specified candidate list: one entry per match after the import's end where a node is found, in scan order |
| `LoggerPlugin.AddHits` | loggerPlugin.ts:54-59 | the loop over one name's matches appends, in order, the node found at each match strictly after the import's end, and nothing else |
| `LoggerPlugin.CandidatesIff` | loggerPlugin.ts:53-59 | a node is a candidate exactly when some searched name matches strictly after the import's end and the node is what is found there |
| `LoggerPlugin.SharedMatchFoundTwice` | loggerPlugin.ts:52-58 | two imported names matching at the same offset (`lg` and `lgr` in `;lgr.f()`) make the node found there a candidate twice |
| `LoggerPlugin.KeptEndsIff` | loggerPlugin.ts:65-72 | the patch loop throws exactly when a candidate has no expression; otherwise `()` goes exactly at the ends of candidates that are calls with a member-expression callee, one insertion per such candidate |
| `LoggerPlugin.KeptEndsPerOffset` | loggerPlugin.ts:65-72 | each offset receives `()` as many times as kept candidates end there, so a candidate listed twice is patched twice |
| `LoggerPlugin.DuplicateCandidatePatchedTwice` | loggerPlugin.ts:65-71 | a member call that is a candidate twice gets `()` twice: `f(...)` becomes `f(...)()()` |
| `LoggerPlugin.PatchCalls` | loggerPlugin.ts:64-72 | the `prependLeft` loop over a MagicString yields the code with `()` at each kept end, or the error of the first candidate without an expression |
| `LoggerPlugin.RenderIsInsertion` | loggerPlugin.ts:64-76 | the output is two characters longer per kept candidate; each original character moves right by two per insertion at or before it, so deleting the insertions gives back the input |
| `LoggerPlugin.RenderOne` | loggerPlugin.ts:70 | one insertion at the end `e` of a call turns `f(...)` into `f(...)()`: the output is `code[..e] + "()" + code[e..]` |
| `LoggerPlugin.Transform` | loggerPlugin.ts:22-79 | the hook returns exactly the specified output or error |
| `LoggerPlugin.EarlyExitsReturnCode` | loggerPlugin.ts:35-61 | the output is the input when no import matched, when no node is found around the import, or when no candidate was found |
| `LoggerPlugin.OutputIsInsertion` | loggerPlugin.ts:64-78 | any output that is not an error is the input with `()` inserted at offsets within it |
| `LoggerPlugin.FailureOnlyFromMissingExpression` | loggerPlugin.ts:66-67 | besides the lexer's and parser's rejection, the only failure is a found node without an expression |
| `MagicText.MagicString.constructor` | loggerPlugin.ts:64 | a new buffer holds the code with nothing inserted at any offset |
| `MagicText.MagicString.PrependLeft` | loggerPlugin.ts:70 | the content goes before whatever was already inserted at that offset, and nothing else changes; in the rendered text it is spliced in at the offset plus everything inserted before it |
| `MagicText.MagicString.ToString` | loggerPlugin.ts:76 | the rendered text is as long as the original plus everything inserted |
| `MagicText.InterleaveSplice` | loggerPlugin.ts:70 | prepending at offset `e` inserts the content into the rendered text at `e` plus the length inserted at earlier offsets, and leaves the rest as it was |
| `MagicText.InterleaveKeepsText` | loggerPlugin.ts:76 | each original character appears in the rendered text, moved right by the length of what was inserted at or before its offset |

## Left out

- Vite plumbing is not modelled: `configResolved`, `buildStart` and `await init`, `name`, `enforce`. `config.root` is a field of `Host`.
- `this.resolve` is a pure function from specifier to resolved id, fixed for the file. Awaiting it is not modelled.
- The module lexer, the parser and the tree walkers are not modelled. These are `parse`, `this.parse`, `findNodeAround`, `simple` and `findNodeAfter`. Their answers for the file are fields of `Host`. The lexer's and the parser's failures are `LexError` and `ParseError`.
- `LoggerPlugin.Transform`: requires that the parser's end offsets lie within the code (`EndsWithin`). An acorn node cannot end past the text.
- `LoggerPlugin.Transform`: returns the rewritten text without the source map. The map's format is internal to MagicString. `RenderIsInsertion` states where each original character moves.
- `MagicText.MagicString`: models only `prependLeft` and `toString`, over offsets within the original text.
- `CreateLogger.Fold`, `CreateLogger.MissingHandlerFails`: a plugin object is the map of its own handlers. Names it inherits from `Object.prototype` (`constructor`, `toString`, `valueOf`, `hasOwnProperty` and the like) are not modelled. For such a level or modifier, which must be an own key of some other plugin object to be in the vocabulary, the source calls the inherited method where the model fails with `NotAFunction`.
- The JavaScript `Proxy` and `Reflect` mechanics are not modelled. An access outside the vocabulary is `PlainProperty`/`FunctionProperty`. `Call` returns `None` for it, and the value of that ordinary lookup is not modelled.
- Symbol property keys are not modelled. `isLevel` and `isModifier` reject them, so they also fall through.
- The console is a set of method names. Non-function console properties are not modelled. The console side effect and `Function.prototype.bind` become `Action` and `Run`.
- A handler is a total function. Handlers that throw are not modelled. Of the four configured ones, `red` and `blue` throw a TypeError when the first argument is a Symbol, because a template literal cannot convert it; `Value` has no Symbol. A plugin entry that is `null` is not modelled either, because `Object.keys(null)` makes `createLogger` throw before any call.
- A non-string argument carries its template-literal text (`Value.Other`). JavaScript's string conversion itself is not modelled.
- `import.meta.env.MODE` is a parameter. The commented-out `navigator.sendBeacon` calls are network I/O.
- From vite.config.ts, only its configured path `"/src/logger.ts"` matters, as the `path` argument. The file itself is configuration.

=== FILE: create_logger.dfy ===
/**
 * The logging engine of src/lib/createLogger.ts: level and modifier plugins
 * folded over a bind config, the deferred console action that results, and
 * the two-tier `logger.<level>.<modifier>` dispatch, written as an explicit
 * lookup instead of JavaScript proxies.
 */
module CreateLogger {
  import opened Wrappers

  /**
   * A console argument. Strings are kept as they are; any other value carries
   * the text a template literal turns it into (`undefined` stands apart
   * because destructuring an empty argument list produces it).
   */
  datatype Value = Str(s: string) | Undefined | Other(text: string)

  /** Which console method to call and with which arguments. */
  datatype BindConfig = BindConfig(methodName: string, args: seq<Value>)

  /** The second argument every handler receives. */
  datatype BindOptions = BindOptions(level: string, modifier: Option<string>)

  /** A plugin handler: the next bind config, or `None` to silence the call. */
  type Handler = (BindConfig, BindOptions) -> Option<BindConfig>

  /** A plugin object: handler per level (or modifier) name. */
  type Plugin = map<string, Handler>

  /** One call `logger.<level>(...args)` or `logger.<level>.<modifier>(...args)`. */
  datatype Request = Request(level: string, modifier: Option<string>, args: seq<Value>)

  /** The thunk a logger call returns: a bound console call, or the silent no-op. */
  datatype Action = Invoke(methodName: string, args: seq<Value>) | Noop

  /** One call made on the console when a thunk runs. */
  datatype ConsoleCall = ConsoleCall(methodName: string, args: seq<Value>)

  datatype Tier = LevelTier | ModifierTier

  /** The TypeErrors `applyPlugins` can throw. */
  datatype Failure =
    | NotAFunction(tier: Tier, name: string)  // a plugin object without a handler for the requested name
    | NotAConsoleMethod(methodName: string)   // the console property the final config names is not a function

  // ----- Vocabulary -----

  /** `new Set(plugins.flatMap((p) => Object.keys(p)))`. */
  function Keys(plugins: seq<Plugin>): set<string> {
    if |plugins| == 0 then {} else Keys(plugins[..|plugins| - 1]) + plugins[|plugins| - 1].Keys
  }

  /** A name is in the vocabulary exactly when some plugin object of the list has a handler for it. */
  lemma {:induction false} KeysIff(plugins: seq<Plugin>, name: string)
    ensures name in Keys(plugins) <==> exists i :: 0 <= i < |plugins| && name in plugins[i]
  {
    if |plugins| > 0 {
      var init := plugins[..|plugins| - 1];
      KeysIff(init, name);
      if name in Keys(init) {
        var i :| 0 <= i < |init| && name in init[i];
        assert plugins[i] == init[i];
      }
      if i :| 0 <= i < |plugins| && name in plugins[i] {
        if i < |plugins| - 1 {
          assert init[i] == plugins[i];
        }
      }
    }
  }

  // ----- The plugin pipeline -----

  /** The bind config a request starts from. */
  function InitialConfig(console: set<string>, req: Request): BindConfig {
    BindConfig(if req.level in console then req.level else "debug", req.args)
  }

  /**
   * The specification of one plugin loop: a left fold of the handlers for
   * `name` over `plugins`, stopping as soon as the config is `None`. A
   * plugin object with no handler for `name` is called anyway and throws.
   */
  function Fold(plugins: seq<Plugin>, tier: Tier, name: string, options: BindOptions, config: Option<BindConfig>)
    : Result<Option<BindConfig>, Failure>
    decreases |plugins|
  {
    if |plugins| == 0 || config.None? then Ok(config)
    else if name !in plugins[0] then Err(NotAFunction(tier, name))
    else Fold(plugins[1..], tier, name, options, plugins[0][name](config.value, options))
  }

  /** The config left after the level plugins and, when a modifier was given and the config survived, the modifier plugins. */
  function FinalConfig(console: set<string>, levels: seq<Plugin>, modifiers: seq<Plugin>, req: Request)
    : Result<Option<BindConfig>, Failure>
  {
    var options := BindOptions(req.level, req.modifier);
    match Fold(levels, LevelTier, req.level, options, Some(InitialConfig(console, req)))
    case Err(e) => Err(e)
    case Ok(config) =>
      if config.Some? && req.modifier.Some? then
        Fold(modifiers, ModifierTier, req.modifier.value, options, config)
      else
        Ok(config)
  }

  /** The specification of `applyPlugins`: the thunk bound to the final config. */
  function Evaluate(console: set<string>, levels: seq<Plugin>, modifiers: seq<Plugin>, req: Request)
    : Result<Action, Failure>
  {
    match FinalConfig(console, levels, modifiers, req)
    case Err(e) => Err(e)
    case Ok(None) => Ok(Noop)
    case Ok(Some(config)) =>
      if config.methodName in console then Ok(Invoke(config.methodName, config.args))
      else Err(NotAConsoleMethod(config.methodName))
  }

  /** `applyPlugins`: the two plugin loops, each left as soon as the config is null. */
  method ApplyPlugins(console: set<string>, levels: seq<Plugin>, modifiers: seq<Plugin>, req: Request)
    returns (r: Result<Action, Failure>)
    ensures r == Evaluate(console, levels, modifiers, req)
  {
    var options := BindOptions(req.level, req.modifier);
    var start := Some(InitialConfig(console, req));
    var config := start;
    var k := 0;
    while k < |levels|
      invariant 0 <= k <= |levels|
      invariant Fold(levels, LevelTier, req.level, options, start) == Fold(levels[k..], LevelTier, req.level, options, config)
    {
      if config.Some? {
        if req.level !in levels[k] {
          return Err(NotAFunction(LevelTier, req.level));
        }
        assert levels[k..][1..] == levels[k + 1..];
        config := levels[k][req.level](config.value, options);
      } else {
        break;
      }
      k := k + 1;
    }
    ghost var afterLevels := config;
    assert Fold(levels, LevelTier, req.level, options, start) == Ok(afterLevels);

    if config.Some? && req.modifier.Some? {
      var modifier := req.modifier.value;
      k := 0;
      while k < |modifiers|
        invariant 0 <= k <= |modifiers|
        invariant Fold(modifiers, ModifierTier, modifier, options, afterLevels)
               == Fold(modifiers[k..], ModifierTier, modifier, options, config)
      {
        if config.Some? {
          if modifier !in modifiers[k] {
            return Err(NotAFunction(ModifierTier, modifier));
          }
          assert modifiers[k..][1..] == modifiers[k + 1..];
          config := modifiers[k][modifier](config.value, options);
        } else {
          break;
        }
        k := k + 1;
      }
    }

    if config.Some? {
      if config.value.methodName !in console {
        return Err(NotAConsoleMethod(config.value.methodName));
      }
      r := Ok(Invoke(config.value.methodName, config.value.args));
    } else {
      r := Ok(Noop);
    }
  }

  /** Running a thunk: the console calls it makes. Nothing reaches the console before this. */
  function Run(action: Action): (calls: seq<ConsoleCall>)
    ensures |calls| <= 1
    ensures calls == [] <==> action.Noop?
    ensures action.Invoke? ==> calls == [ConsoleCall(action.methodName, action.args)]
  {
    match action
    case Noop => []
    case Invoke(m, args) => [ConsoleCall(m, args)]
  }

  // ----- Properties of the pipeline -----

  /** Plugins run in list order: folding a concatenation folds the first part, then the second from where it stopped. */
  lemma {:induction false} FoldAppend(ps: seq<Plugin>, qs: seq<Plugin>, tier: Tier, name: string, options: BindOptions, config: Option<BindConfig>)
    ensures Fold(ps + qs, tier, name, options, config) ==
      match Fold(ps, tier, name, options, config)
      case Err(e) => Err(e)
      case Ok(c) => Fold(qs, tier, name, options, c)
    decreases |ps|
  {
    if |ps| == 0 {
      assert ps + qs == qs;
    } else if config.Some? {
      assert (ps + qs)[0] == ps[0];
      assert (ps + qs)[1..] == ps[1..] + qs;
      if name in ps[0] {
        FoldAppend(ps[1..], qs, tier, name, options, ps[0][name](config.value, options));
      }
    }
  }

  /** A one-plugin chain calls that plugin's handler once, or fails when it has none. */
  lemma FoldSingle(p: Plugin, tier: Tier, name: string, options: BindOptions, config: BindConfig)
    ensures Fold([p], tier, name, options, Some(config))
         == if name in p then Ok(p[name](config, options)) else Err(NotAFunction(tier, name))
  {
    if name in p {
      assert [p][1..] == [];
    }
  }

  /** Once a prefix of the plugins has returned null, nothing after it runs: the result is null whatever follows, even plugins lacking the handler. */
  lemma SuppressionIsFinal(ps: seq<Plugin>, qs: seq<Plugin>, tier: Tier, name: string, options: BindOptions, config: Option<BindConfig>)
    requires Fold(ps, tier, name, options, config) == Ok(None)
    ensures Fold(ps + qs, tier, name, options, config) == Ok(None)
  {
    FoldAppend(ps, qs, tier, name, options, config);
  }

  /** A plugin without a handler for the name fails the call when the config reaches it non-null; it is not skipped. */
  lemma MissingHandlerFails(ps: seq<Plugin>, i: nat, tier: Tier, name: string, options: BindOptions, config: Option<BindConfig>, reached: BindConfig)
    requires i < |ps| && name !in ps[i]
    requires Fold(ps[..i], tier, name, options, config) == Ok(Some(reached))
    ensures Fold(ps, tier, name, options, config) == Err(NotAFunction(tier, name))
  {
    assert ps == ps[..i] + ps[i..];
    FoldAppend(ps[..i], ps[i..], tier, name, options, config);
  }

  /** When every plugin object has a handler for the name, the fold never fails. */
  lemma {:induction false} CompleteChainNeverFails(ps: seq<Plugin>, tier: Tier, name: string, options: BindOptions, config: Option<BindConfig>)
    requires forall i :: 0 <= i < |ps| ==> name in ps[i]
    ensures Fold(ps, tier, name, options, config).Ok?
    decreases |ps|
  {
    if |ps| > 0 && config.Some? {
      CompleteChainNeverFails(ps[1..], tier, name, options, ps[0][name](config.value, options));
    }
  }

  /** A null from the level chain silences the call whatever the modifier plugins are. */
  lemma LevelSilenceIsNoop(console: set<string>, levels: seq<Plugin>, modifiers: seq<Plugin>, req: Request)
    requires Fold(levels, LevelTier, req.level, BindOptions(req.level, req.modifier), Some(InitialConfig(console, req))) == Ok(None)
    ensures Evaluate(console, levels, modifiers, req) == Ok(Noop)
    ensures Run(Evaluate(console, levels, modifiers, req).value) == []
  {
  }

  /** A call without a modifier never consults the modifier plugins. */
  lemma NoModifierIgnoresModifierPlugins(console: set<string>, levels: seq<Plugin>, modifiers: seq<Plugin>, others: seq<Plugin>, req: Request)
    requires req.modifier.None?
    ensures Evaluate(console, levels, modifiers, req) == Evaluate(console, levels, others, req)
  {
  }

  /** Without plugins, the thunk calls the level's own console method (or `debug`) with the call's arguments unchanged. */
  lemma NoPluginsBindsInitialConfig(console: set<string>, req: Request)
    requires "debug" in console
    ensures Evaluate(console, [], [], req) == Ok(Invoke(if req.level in console then req.level else "debug", req.args))
  {
  }

  /** The thunk invokes exactly the final config's console method with exactly its arguments, and is the no-op exactly when the final config is null. */
  lemma EvaluateBindsFinalConfig(console: set<string>, levels: seq<Plugin>, modifiers: seq<Plugin>, req: Request)
    ensures forall m, a :: Evaluate(console, levels, modifiers, req) == Ok(Invoke(m, a))
                       <==> FinalConfig(console, levels, modifiers, req) == Ok(Some(BindConfig(m, a))) && m in console
    ensures Evaluate(console, levels, modifiers, req) == Ok(Noop) <==> FinalConfig(console, levels, modifiers, req) == Ok(None)
  {
  }

  // ----- The logger object -----

  /** What `createLogger` builds: the plugin lists, the console they call into, and the two vocabularies. */
  datatype Logger = Logger(
    console: set<string>,
    levelPlugins: seq<Plugin>,
    modifierPlugins: seq<Plugin>,
    levels: set<string>,
    modifiers: set<string>)

  /** `createLogger`: the recognised levels and modifiers are the names some plugin object of the respective list handles. */
  function NewLogger(console: set<string>, levelPlugins: seq<Plugin>, modifierPlugins: seq<Plugin>): (l: Logger)
    ensures l.console == console && l.levelPlugins == levelPlugins && l.modifierPlugins == modifierPlugins
    ensures forall name :: name in l.levels <==> exists i :: 0 <= i < |levelPlugins| && name in levelPlugins[i]
    ensures forall name :: name in l.modifiers <==> exists i :: 0 <= i < |modifierPlugins| && name in modifierPlugins[i]
  {
    var l := Logger(console, levelPlugins, modifierPlugins, Keys(levelPlugins), Keys(modifierPlugins));
    assert forall name :: name in l.levels <==> exists i :: 0 <= i < |levelPlugins| && name in levelPlugins[i] by {
      forall name { KeysIff(levelPlugins, name); }
    }
    assert forall name :: name in l.modifiers <==> exists i :: 0 <= i < |modifierPlugins| && name in modifierPlugins[i] by {
      forall name { KeysIff(modifierPlugins, name); }
    }
    l
  }

  /** What `logger.<key>` yields: the level's dispatcher, or whatever ordinary lookup finds on the empty target object. */
  datatype LevelProperty = Dispatcher(level: string) | PlainProperty(key: string)

  /** What `logger.<level>.<key>` yields: a styled log function, or whatever ordinary lookup finds on the dispatcher's function target. */
  datatype ModifierProperty = Styled(level: string, modifier: string) | FunctionProperty(key: string)

  /** The outer `get` trap. */
  function GetLevel(l: Logger, key: string): (p: LevelProperty)
    ensures p == Dispatcher(key) <==> key in l.levels
    ensures key !in l.levels ==> p == PlainProperty(key)
  {
    if key in l.levels then Dispatcher(key) else PlainProperty(key)
  }

  /** The inner `get` trap of the dispatcher for `level`. */
  function GetModifier(level: string, l: Logger, key: string): (p: ModifierProperty)
    ensures p == Styled(level, key) <==> key in l.modifiers
    ensures key !in l.modifiers ==> p == FunctionProperty(key)
  {
    if key in l.modifiers then Styled(level, key) else FunctionProperty(key)
  }

  /** Calling the dispatcher (its `apply` trap): no modifier. */
  function CallDispatcher(l: Logger, level: string, args: seq<Value>): Result<Action, Failure> {
    Evaluate(l.console, l.levelPlugins, l.modifierPlugins, Request(level, None, args))
  }

  /** Calling a styled log function. */
  function CallStyled(l: Logger, level: string, modifier: string, args: seq<Value>): Result<Action, Failure> {
    Evaluate(l.console, l.levelPlugins, l.modifierPlugins, Request(level, Some(modifier), args))
  }

  /**
   * The call expression `logger.<level>(...args)` (modifier `None`) or
   * `logger.<level>.<modifier>(...args)`. `None` when a name falls through
   * to ordinary property lookup, whose value the model does not describe.
   */
  function Call(l: Logger, level: string, modifier: Option<string>, args: seq<Value>): (r: Option<Result<Action, Failure>>)
    ensures r.Some? <==> level in l.levels && (modifier.Some? ==> modifier.value in l.modifiers)
    ensures r.Some? ==> r.value == Evaluate(l.console, l.levelPlugins, l.modifierPlugins, Request(level, modifier, args))
  {
    match GetLevel(l, level)
    case PlainProperty(_) => None
    case Dispatcher(lv) =>
      if modifier.None? then Some(CallDispatcher(l, lv, args))
      else
        match GetModifier(lv, l, modifier.value)
        case FunctionProperty(_) => None
        case Styled(lv', m) => Some(CallStyled(l, lv', m, args))
  }

  /** Both tiers dispatch exactly on the vocabulary; anything else falls through to ordinary lookup. */
  lemma DispatchFollowsVocabulary(console: set<string>, levelPlugins: seq<Plugin>, modifierPlugins: seq<Plugin>, level: string, modifier: Option<string>, args: seq<Value>)
    ensures var l := NewLogger(console, levelPlugins, modifierPlugins);
      Call(l, level, modifier, args).Some? <==>
        (exists i :: 0 <= i < |levelPlugins| && level in levelPlugins[i]) &&
        (modifier.Some? ==> exists i :: 0 <= i < |modifierPlugins| && modifier.value in modifierPlugins[i])
    ensures var l := NewLogger(console, levelPlugins, modifierPlugins);
      Call(l, level, modifier, args).Some? ==>
        Call(l, level, modifier, args).value == Evaluate(console, levelPlugins, modifierPlugins, Request(level, modifier, args))
  {
  }
}

=== FILE: js_string.dfy ===
/**
 * The few JavaScript string operations the logger relies on:
 * `String.prototype.includes`, `String.prototype.slice` with one
 * non-negative argument, and the start indices produced by
 * `s.matchAll(new RegExp(name, "g"))` when `name` is an identifier.
 */
module JsString {

  /** `t` occurs in `s` starting at index `i`. */
  predicate OccursAt(s: string, t: string, i: int) {
    0 <= i && i + |t| <= |s| && s[i..i + |t|] == t
  }

  lemma ShiftOccurrence(s: string, t: string)
    requires |s| > 0 && !OccursAt(s, t, 0)
    ensures (exists i :: OccursAt(s[1..], t, i)) <==> (exists i :: OccursAt(s, t, i))
  {
    if i :| OccursAt(s[1..], t, i) {
      assert s[1..][i..i + |t|] == s[i + 1..i + 1 + |t|];
      assert OccursAt(s, t, i + 1);
    }
    if i :| OccursAt(s, t, i) {
      assert i > 0;
      assert s[1..][i - 1..i - 1 + |t|] == s[i..i + |t|];
      assert OccursAt(s[1..], t, i - 1);
    }
  }

  /** `s.includes(t)`: true exactly when `t` occurs somewhere in `s`. */
  function Includes(s: string, t: string): (b: bool)
    ensures b <==> exists i :: OccursAt(s, t, i)
    decreases |s|
  {
    if |t| <= |s| && s[..|t|] == t then
      assert OccursAt(s, t, 0);
      true
    else if |s| == 0 then
      false
    else
      ShiftOccurrence(s, t);
      Includes(s[1..], t)
  }

  /** `s.slice(k)` for `k >= 0`: drops the first `k` characters, all of them when `k` exceeds the length. */
  function Slice(s: string, k: nat): (r: string)
    ensures k <= |s| ==> s == s[..k] + r
    ensures |s| <= k ==> r == []
  {
    if k <= |s| then s[k..] else []
  }

  /** How far a global regular expression advances after a match of `p`: an empty match moves on by one. */
  function Advance(p: string): nat {
    if |p| == 0 then 1 else |p|
  }

  /**
   * Start indices of the leftmost, non-overlapping literal occurrences of `p`
   * in `s` at or after `from`: what a global `matchAll` yields for a pattern
   * without metacharacters.
   */
  function LiteralMatches(s: string, p: string, from: nat): (r: seq<nat>)
    requires from <= |s| + 1
    ensures forall k :: 0 <= k < |r| ==> from <= r[k] && OccursAt(s, p, r[k])
    ensures forall k :: 0 < k < |r| ==> r[k - 1] + Advance(p) <= r[k]
    decreases |s| + 1 - from
  {
    if from > |s| then []
    else if OccursAt(s, p, from) then [from] + LiteralMatches(s, p, from + Advance(p))
    else LiteralMatches(s, p, from + 1)
  }

  /** `t` does not occur where its first character is missing. */
  lemma FirstCharMismatch(s: string, t: string, i: nat)
    requires |t| > 0 && (i < |s| ==> s[i] != t[0])
    ensures !OccursAt(s, t, i)
  {
  }

  /** Too close to the end for `p` to fit: no further match. */
  lemma {:induction false} NoMatchNearEnd(s: string, p: string, from: nat)
    requires from <= |s| + 1 && |s| < from + |p|
    ensures LiteralMatches(s, p, from) == []
    decreases |s| + 1 - from
  {
    if from <= |s| {
      NoMatchNearEnd(s, p, from + 1);
    }
  }

  /** `i` is in `r`, or inside an occurrence of `p` that starts at an element of `r`. */
  predicate Covered(r: seq<nat>, p: string, i: int) {
    i in r || exists m :: m in r && m < i < m + |p|
  }

  /** Every occurrence is either reported or overlaps a reported one that starts before it. */
  lemma {:induction false} LiteralMatchesComplete(s: string, p: string, from: nat, i: int)
    requires from <= |s| + 1 && from <= i && OccursAt(s, p, i)
    ensures Covered(LiteralMatches(s, p, from), p, i)
    decreases |s| + 1 - from
  {
    var r := LiteralMatches(s, p, from);
    if from > |s| {
      assert false;
    } else if OccursAt(s, p, from) {
      var rest := LiteralMatches(s, p, from + Advance(p));
      assert r == [from] + rest;
      if i == from {
        assert i in r;
      } else if i < from + Advance(p) {
        assert from in r && from < i < from + |p|;
      } else {
        LiteralMatchesComplete(s, p, from + Advance(p), i);
        if i !in rest {
          var m :| m in rest && m < i < m + |p|;
          assert m in r;
        }
      }
    } else {
      assert i != from;
      LiteralMatchesComplete(s, p, from + 1, i);
    }
  }

  /** Position of the first `c` in `p`. */
  function IndexOf(p: string, c: char): (k: nat)
    requires c in p
    ensures k < |p| && p[k] == c && c !in p[..k]
  {
    if p[0] == c then 0
    else
      var k := IndexOf(p[1..], c);
      assert p[..k + 1] == [p[0]] + p[1..][..k];
      k + 1
  }

  /**
   * Start indices yielded by `s.matchAll(new RegExp(p, "g"))` when `p` is a
   * JavaScript identifier. The only identifier character a regular
   * expression treats specially is `$`, which (without the `m` flag) only
   * matches at the end of the input: a name with `$` matches at most once,
   * and only when what precedes its first `$` ends the text and nothing but
   * further `$` follows it.
   */
  function RegexMatches(s: string, p: string): (r: seq<nat>)
    ensures forall k :: 0 <= k < |r| ==> r[k] <= |s|
    ensures '$' !in p ==> forall k :: 0 <= k < |r| ==> OccursAt(s, p, r[k])
    ensures '$' in p ==> |r| <= 1
    ensures '$' in p ==> forall k :: 0 <= k < |r| ==>
      r[k] + IndexOf(p, '$') == |s| && OccursAt(s, p[..IndexOf(p, '$')], r[k])
    ensures '$' in p ==> (|r| == 1 <==>
      (forall j :: IndexOf(p, '$') < j < |p| ==> p[j] == '$') && OccursAt(s, p[..IndexOf(p, '$')], |s| - IndexOf(p, '$')))
  {
    if '$' !in p then LiteralMatches(s, p, 0)
    else
      var k := IndexOf(p, '$');
      var literal := p[..k];
      if (forall j | k < j < |p| :: p[j] == '$') && |literal| <= |s| && s[|s| - |literal|..] == literal
      then [|s| - |literal|]
      else []
  }

  /** A name with a character other than `$` after its first `$` is never found, not even where it occurs literally. */
  lemma DollarNameNeverMatches(s: string, p: string, j: nat)
    requires '$' in p && IndexOf(p, '$') < j < |p| && p[j] != '$'
    ensures RegexMatches(s, p) == []
  {
  }

  /** Example: `$log` is never found in `$log.debug(1)`, although it occurs there at index 0. */
  lemma DollarNameExample()
    ensures OccursAt("$log.debug(1)", "$log", 0)
    ensures RegexMatches("$log.debug(1)", "$log") == []
  {
    assert "$log"[1] != '$';
    DollarNameNeverMatches("$log.debug(1)", "$log", 1);
  }
}

=== FILE: logger_config.dfy ===
/**
 * The application's logger of src/logger.ts: one level plugin with `debug`
 * and `log`, one modifier plugin with `red` and `blue`. The build mode
 * (`import.meta.env.MODE`, possibly absent) is a parameter.
 */
module LoggerConfig {
  import opened Wrappers
  import opened JsString
  import opened CreateLogger

  const RedStyle := "background-color: red; color: white"
  const BlueStyle := "background-color: blue; color: white"

  /** `debug`: lets the call through only when the mode string contains "dev". */
  function Debug(mode: Option<string>, config: BindConfig, options: BindOptions): (r: Option<BindConfig>)
    ensures r.Some? <==> mode.Some? && exists i :: OccursAt(mode.value, "dev", i)
    ensures r.Some? ==> r.value == config
  {
    if DevMode(mode) then Some(BindConfig(config.methodName, config.args)) else None
  }

  /** `log`: passes the call through unchanged. */
  function Log(config: BindConfig, options: BindOptions): (r: Option<BindConfig>)
    ensures r == Some(config)
  {
    Some(BindConfig(config.methodName, config.args))
  }

  /** The text a template literal makes of a value. */
  function Text(v: Value): string {
    match v
    case Str(s) => s
    case Undefined => "undefined"
    case Other(text) => text
  }

  /**
   * `{ method, args: [label, ...args] } => ({ method, args: [`%c${label}`, style, ...args] })`.
   * With no arguments at all, `label` is `undefined`.
   */
  function Style(config: BindConfig, style: string): (r: BindConfig)
    ensures r.methodName == config.methodName
    ensures |r.args| == if |config.args| == 0 then 2 else |config.args| + 1
    ensures r.args[0] == Str("%c" + Text(if |config.args| == 0 then Undefined else config.args[0]))
    ensures r.args[1] == Str(style)
    ensures forall k :: 2 <= k < |r.args| ==> r.args[k] == config.args[k - 1]
  {
    var first := if |config.args| == 0 then Undefined else config.args[0];
    var rest := if |config.args| == 0 then [] else config.args[1..];
    BindConfig(config.methodName, [Str("%c" + Text(first)), Str(style)] + rest)
  }

  /** `red`: never silences; prefixes the label with `%c` and inserts the red style second. */
  function Red(config: BindConfig, options: BindOptions): (r: Option<BindConfig>)
    ensures r.Some? && r.value.methodName == config.methodName
    ensures |config.args| > 0 ==> r.value.args == [Str("%c" + Text(config.args[0])), Str(RedStyle)] + config.args[1..]
  {
    Some(Style(config, RedStyle))
  }

  /** `blue`: as `red` with the blue style. */
  function Blue(config: BindConfig, options: BindOptions): (r: Option<BindConfig>)
    ensures r.Some? && r.value.methodName == config.methodName
    ensures |config.args| > 0 ==> r.value.args == [Str("%c" + Text(config.args[0])), Str(BlueStyle)] + config.args[1..]
  {
    Some(Style(config, BlueStyle))
  }

  /** The `levels` list passed to `createLogger`: one plugin object whose `debug` sees the build mode. */
  function LevelPlugins(mode: Option<string>): (ps: seq<Plugin>)
    ensures |ps| == 1 && ps[0].Keys == {"debug", "log"}
    ensures forall c, o :: ps[0]["debug"](c, o) == Debug(mode, c, o) && ps[0]["log"](c, o) == Log(c, o)
  {
    [map["debug" := (c, o) => Debug(mode, c, o), "log" := Log]]
  }

  /** The `modifiers` list passed to `createLogger`. */
  function ModifierPlugins(): (ps: seq<Plugin>)
    ensures |ps| == 1 && ps[0].Keys == {"red", "blue"}
    ensures forall c, o :: ps[0]["red"](c, o) == Red(c, o) && ps[0]["blue"](c, o) == Blue(c, o)
  {
    [map["red" := Red, "blue" := Blue]]
  }

  /** The exported `logger`: its levels are `debug` and `log`, its modifiers `red` and `blue`, whatever the mode. */
  function AppLogger(console: set<string>, mode: Option<string>): (l: Logger)
    ensures l.console == console
    ensures l.levels == {"debug", "log"}
    ensures l.modifiers == {"red", "blue"}
  {
    var l := NewLogger(console, LevelPlugins(mode), ModifierPlugins());
    assert l.levels == {"debug", "log"} by {
      forall name ensures name in l.levels <==> name in {"debug", "log"} {
        if name in l.levels {
          var i :| 0 <= i < |LevelPlugins(mode)| && name in LevelPlugins(mode)[i];
        }
        assert "debug" in LevelPlugins(mode)[0] && "log" in LevelPlugins(mode)[0];
      }
    }
    assert l.modifiers == {"red", "blue"} by {
      forall name ensures name in l.modifiers <==> name in {"red", "blue"} {
        if name in l.modifiers {
          var i :| 0 <= i < |ModifierPlugins()| && name in ModifierPlugins()[i];
        }
        assert "red" in ModifierPlugins()[0] && "blue" in ModifierPlugins()[0];
      }
    }
    l
  }

  predicate DevMode(mode: Option<string>) {
    mode.Some? && Includes(mode.value, "dev")
  }

  /** What the level plugin makes of a request: `debug` keeps it in a development mode, `log` always. */
  lemma LevelStep(console: set<string>, mode: Option<string>, req: Request)
    requires req.level in {"debug", "log"}
    ensures FinalConfigAfterLevels(console, mode, req)
         == if req.level == "log" || DevMode(mode) then Ok(Some(InitialConfig(console, req))) else Ok(None)
  {
    var options := BindOptions(req.level, req.modifier);
    var config := InitialConfig(console, req);
    FoldSingle(LevelPlugins(mode)[0], LevelTier, req.level, options, config);
    assert LevelPlugins(mode) == [LevelPlugins(mode)[0]];
  }

  /** The config after the level plugin. */
  function FinalConfigAfterLevels(console: set<string>, mode: Option<string>, req: Request): Result<Option<BindConfig>, Failure> {
    Fold(LevelPlugins(mode), LevelTier, req.level, BindOptions(req.level, req.modifier), Some(InitialConfig(console, req)))
  }

  /** What the modifier plugin makes of a surviving config. */
  lemma ModifierStep(modifier: string, options: BindOptions, config: BindConfig)
    requires modifier in {"red", "blue"}
    ensures Fold(ModifierPlugins(), ModifierTier, modifier, options, Some(config))
         == Ok(Some(Style(config, if modifier == "red" then RedStyle else BlueStyle)))
  {
    FoldSingle(ModifierPlugins()[0], ModifierTier, modifier, options, config);
    assert ModifierPlugins() == [ModifierPlugins()[0]];
  }

  /** Every plugin object handles every name of its list, so no call in the vocabulary throws (given a console with `debug`). */
  lemma NoCallFails(console: set<string>, mode: Option<string>, level: string, modifier: Option<string>, args: seq<Value>)
    requires "debug" in console
    requires level in {"debug", "log"} && (modifier.Some? ==> modifier.value in {"red", "blue"})
    ensures Call(AppLogger(console, mode), level, modifier, args).Some?
    ensures Call(AppLogger(console, mode), level, modifier, args).value.Ok?
  {
    var req := Request(level, modifier, args);
    LevelStep(console, mode, req);
    if modifier.Some? {
      ModifierStep(modifier.value, BindOptions(level, modifier), InitialConfig(console, req));
    }
  }

  /** Outside a development mode, and when the mode is absent, every debug call is silenced, styled or not. */
  lemma DebugSilencedOutsideDev(console: set<string>, mode: Option<string>, modifier: Option<string>, args: seq<Value>)
    requires !DevMode(mode)
    requires modifier.Some? ==> modifier.value in {"red", "blue"}
    ensures Call(AppLogger(console, mode), "debug", modifier, args) == Some(Ok(Noop))
  {
    LevelStep(console, mode, Request("debug", modifier, args));
  }

  /** `logger.debug.red(x)` in a development mode calls `console.debug("%c" + x, red style)`. */
  lemma DebugRedInDev(console: set<string>, mode: Option<string>, x: string)
    requires "debug" in console && DevMode(mode)
    ensures Call(AppLogger(console, mode), "debug", Some("red"), [Str(x)])
         == Some(Ok(Invoke("debug", [Str("%c" + x), Str(RedStyle)])))
  {
    var req := Request("debug", Some("red"), [Str(x)]);
    LevelStep(console, mode, req);
    ModifierStep("red", BindOptions("debug", Some("red")), InitialConfig(console, req));
    assert Style(InitialConfig(console, req), RedStyle).args == [Str("%c" + x), Str(RedStyle)];
  }

  /** `logger.log(...args)` always calls `console.log` (or `console.debug` without it) with the arguments unchanged. */
  lemma LogPassesThrough(console: set<string>, mode: Option<string>, args: seq<Value>)
    requires "debug" in console
    ensures Call(AppLogger(console, mode), "log", None, args)
         == Some(Ok(Invoke(if "log" in console then "log" else "debug", args)))
  {
    LevelStep(console, mode, Request("log", None, args));
  }
}

=== FILE: logger_plugin.dfy ===
/**
 * The `transform` hook of loggerPlugin.ts: find the import of the logger
 * configuration module, collect the names it binds, find the statements
 * after the import that mention one of them, and append `()` to each one
 * that is a method call, so that the thunk the logger returns runs at once.
 *
 * The module lexer, the parser, the tree walkers and the host's resolver
 * are not part of this model: their answers for the file being transformed
 * are given as a `Host` value.
 */
module LoggerPlugin {
  import opened Wrappers
  import opened JsString
  import opened MagicText

  /** An import found by the module lexer: its specifier when that is a string, and the statement's start and end offsets. */
  datatype Import = Import(n: Option<string>, ss: nat, se: nat)

  /** A specifier node inside an import declaration. */
  datatype Clause =
    | ImportSpecifier(local: string)           // `{ a }`, `{ a as b }`
    | ImportDefaultSpecifier(local: string)    // `a`
    | ImportNamespaceSpecifier(local: string)  // `* as a`

  datatype NodeType = CallExpression | MemberExpression | OtherNode(name: string)

  /** The `expression` of a found node: its type, its callee's type (meaningful for calls) and its end offset. */
  datatype Expression = Expression(kind: NodeType, callee: NodeType, end: nat)

  /**
   * A result of `findNodeAfter`; `id` names the node found. `expression` is
   * `None` when the node's `expression` property is undefined. A node whose
   * `expression` is a boolean (an arrow function's) reads as a node of no
   * particular type, `Some(Expression(OtherNode(..), ..))`.
   */
  datatype Found = Found(id: nat, expression: Option<Expression>)

  /** What the host and the parsing libraries answer for one file. */
  datatype Host = Host(
    root: string,                            // `config.root`
    lexed: Option<seq<Import>>,              // the imports from the module lexer; `None` when it throws
    resolve: string -> Option<string>,       // the resolved id of a specifier for this file, if any
    parses: bool,                            // whether the parser accepts the file
    findAround: nat -> Option<seq<Clause>>,  // the specifier nodes the walk meets inside the node found around an offset
    findAfter: nat -> Option<Found>)         // the node found at or after an offset

  /** The parser's offsets lie within the text. */
  ghost predicate EndsWithin(h: Host, code: string) {
    forall pos :: h.findAfter(pos).Some? && h.findAfter(pos).value.expression.Some? ==>
      h.findAfter(pos).value.expression.value.end <= |code|
  }

  /** What `transform` returns: the code itself, or new code (with a source map). */
  datatype Output = Unchanged(code: string) | Rewritten(code: string)

  /** What makes `transform` throw. */
  datatype TransformError =
    | LexError               // the module lexer rejects the file
    | ParseError             // the parser rejects the file
    | ExpressionMissing(id: nat)  // a found node whose `expression` is undefined: reading its `type` throws

  // ----- Import selection -----

  /**
   * The import refers to the logger configuration: its specifier is a
   * string that resolves, and the resolved id is the configured path after
   * as many characters as the root has, whatever those are (or the id is no
   * longer than the root and the path is empty).
   */
  function IsLoggerImport(h: Host, path: string, i: Import): (b: bool)
    ensures b <==> (i.n.Some? && h.resolve(i.n.value).Some? &&
      ((exists prefix :: |prefix| == |h.root| && h.resolve(i.n.value).value == prefix + path) ||
       (|h.resolve(i.n.value).value| <= |h.root| && path == [])))
  {
    if i.n.Some? && h.resolve(i.n.value).Some? then
      var id := h.resolve(i.n.value).value;
      if |h.root| <= |id| then
        assert id == id[..|h.root|] + id[|h.root|..];
        Slice(id, |h.root|) == path
      else
        Slice(id, |h.root|) == path
    else false
  }

  /** The first logger import in lexer order. */
  function SelectImport(h: Host, path: string, imports: seq<Import>): Option<Import>
    decreases |imports|
  {
    if |imports| == 0 then None
    else if IsLoggerImport(h, path, imports[0]) then Some(imports[0])
    else SelectImport(h, path, imports[1..])
  }

  /** The import loop: resolve each string specifier in turn, stop at the first match. */
  method FindLoggerImport(h: Host, path: string, imports: seq<Import>) returns (loggerImport: Option<Import>)
    ensures loggerImport == SelectImport(h, path, imports)
  {
    loggerImport := None;
    var k := 0;
    while k < |imports|
      invariant 0 <= k <= |imports|
      invariant loggerImport == None
      invariant SelectImport(h, path, imports) == SelectImport(h, path, imports[k..])
    {
      var i := imports[k];
      if i.n.Some? {
        var imported := h.resolve(i.n.value);
        if imported.Some? && Slice(imported.value, |h.root|) == path {
          loggerImport := Some(i);
          break;
        }
      }
      assert imports[k..][1..] == imports[k + 1..];
      k := k + 1;
    }
  }

  /** The selected import is the first one that refers to the logger; there is none exactly when no import does. */
  lemma {:induction false} SelectImportFirst(h: Host, path: string, imports: seq<Import>)
    ensures SelectImport(h, path, imports).None? <==> forall k :: 0 <= k < |imports| ==> !IsLoggerImport(h, path, imports[k])
    ensures SelectImport(h, path, imports).Some? ==>
      exists k :: 0 <= k < |imports| && imports[k] == SelectImport(h, path, imports).value &&
        IsLoggerImport(h, path, imports[k]) && forall j :: 0 <= j < k ==> !IsLoggerImport(h, path, imports[j])
    decreases |imports|
  {
    if |imports| > 0 && !IsLoggerImport(h, path, imports[0]) {
      var rest := imports[1..];
      SelectImportFirst(h, path, rest);
      forall k | 0 < k < |imports| ensures imports[k] == rest[k - 1] { }
      if SelectImport(h, path, rest).Some? {
        var k :| 0 <= k < |rest| && rest[k] == SelectImport(h, path, rest).value &&
          IsLoggerImport(h, path, rest[k]) && forall j :: 0 <= j < k ==> !IsLoggerImport(h, path, rest[j]);
        assert imports[k + 1] == rest[k];
        forall j | 0 <= j < k + 1 ensures !IsLoggerImport(h, path, imports[j]) {
          if j > 0 { assert imports[j] == rest[j - 1]; }
        }
      } else {
        forall k | 0 <= k < |imports| ensures !IsLoggerImport(h, path, imports[k]) {
          if k > 0 { assert imports[k] == rest[k - 1]; }
        }
      }
    } else if |imports| > 0 {
      assert IsLoggerImport(h, path, imports[0]);
    }
  }

  /** The resolver is asked only about string specifiers: two resolvers that agree on those select the same import. */
  lemma {:induction false} SelectionAsksOnlyStringSpecifiers(h: Host, h': Host, path: string, imports: seq<Import>)
    requires h.root == h'.root
    requires forall k :: 0 <= k < |imports| && imports[k].n.Some? ==> h.resolve(imports[k].n.value) == h'.resolve(imports[k].n.value)
    ensures SelectImport(h, path, imports) == SelectImport(h', path, imports)
    decreases |imports|
  {
    if |imports| > 0 {
      assert IsLoggerImport(h, path, imports[0]) == IsLoggerImport(h', path, imports[0]);
      forall k | 0 <= k < |imports[1..]| && imports[1..][k].n.Some?
        ensures h.resolve(imports[1..][k].n.value) == h'.resolve(imports[1..][k].n.value)
      {
        assert imports[1..][k] == imports[k + 1];
      }
      SelectionAsksOnlyStringSpecifiers(h, h', path, imports[1..]);
    }
  }

  /** Only the characters after the root's length are compared: whatever the resolved id starts with, it matches when its tail is the path. */
  lemma NoRootPrefixCheck(h: Host, path: string, i: Import, prefix: string)
    requires i.n.Some? && |prefix| == |h.root| && h.resolve(i.n.value) == Some(prefix + path)
    ensures IsLoggerImport(h, path, i)
  {
    assert (prefix + path)[|prefix|..] == path;
  }

  // ----- Names bound by the import -----

  /** The local names of the named import specifiers, each once, in walk order (the order a `Set` keeps). */
  function Specifiers(clauses: seq<Clause>): seq<string> {
    if |clauses| == 0 then []
    else
      var names := Specifiers(clauses[..|clauses| - 1]);
      var c := clauses[|clauses| - 1];
      if c.ImportSpecifier? && c.local !in names then names + [c.local] else names
  }

  /** The walk over the import statement node. */
  method CollectSpecifiers(clauses: seq<Clause>) returns (names: seq<string>)
    ensures names == Specifiers(clauses)
  {
    names := [];
    var k := 0;
    while k < |clauses|
      invariant 0 <= k <= |clauses|
      invariant names == Specifiers(clauses[..k])
    {
      var c := clauses[k];
      assert clauses[..k + 1][..k] == clauses[..k];
      if c.ImportSpecifier? && c.local !in names {
        names := names + [c.local];
      }
      k := k + 1;
    }
    assert clauses[..k] == clauses;
  }

  /** The names searched for are exactly the local names of named specifiers, each listed once; default and namespace imports add none. */
  lemma {:induction false} SpecifiersIff(clauses: seq<Clause>)
    ensures forall name :: name in Specifiers(clauses) <==> ImportSpecifier(name) in clauses
    ensures Distinct(Specifiers(clauses))
  {
    if |clauses| > 0 {
      var init := clauses[..|clauses| - 1];
      SpecifiersIff(init);
      assert clauses == init + [clauses[|clauses| - 1]];
    }
  }

  // ----- Candidate statements -----

  /** The nodes found after the import for the match offsets `ms`, in order. */
  function HitsAt(ms: seq<nat>, se: nat, findAfter: nat -> Option<Found>): seq<Found> {
    if |ms| == 0 then []
    else
      var m := ms[|ms| - 1];
      HitsAt(ms[..|ms| - 1], se, findAfter) + (if m > se && findAfter(m).Some? then [findAfter(m).value] else [])
  }

  /** One more match offset adds at most the node found there. */
  lemma HitsAtStep(ms: seq<nat>, j: nat, se: nat, findAfter: nat -> Option<Found>)
    requires j < |ms|
    ensures HitsAt(ms[..j + 1], se, findAfter) ==
      HitsAt(ms[..j], se, findAfter) + (if ms[j] > se && findAfter(ms[j]).Some? then [findAfter(ms[j]).value] else [])
  {
    assert ms[..j + 1][..j] == ms[..j];
  }

  /**
   * `foundNodes` after the scan of every name. `findNodeAfter` returns a new
   * `Found` object on every call, so the `Set` never holds the same object
   * twice and keeps every answer, in scan order.
   */
  function Candidates(code: string, names: seq<string>, se: nat, findAfter: nat -> Option<Found>): seq<Found> {
    if |names| == 0 then []
    else Candidates(code, names[..|names| - 1], se, findAfter) + HitsAt(RegexMatches(code, names[|names| - 1]), se, findAfter)
  }

  /** The occurrence scan: for every name, every match strictly after the import's end adds the node found there. */
  method FindCandidates(code: string, names: seq<string>, se: nat, findAfter: nat -> Option<Found>) returns (found: seq<Found>)
    ensures found == Candidates(code, names, se, findAfter)
  {
    found := [];
    var k := 0;
    while k < |names|
      invariant 0 <= k <= |names|
      invariant found == Candidates(code, names[..k], se, findAfter)
    {
      var ms := RegexMatches(code, names[k]);
      assert names[..k + 1][..k] == names[..k];
      found := AddHits(found, ms, se, findAfter);
      k := k + 1;
    }
    assert names[..k] == names;
  }

  /** The inner loop over the matches of one name. */
  method AddHits(acc: seq<Found>, ms: seq<nat>, se: nat, findAfter: nat -> Option<Found>) returns (found: seq<Found>)
    ensures found == acc + HitsAt(ms, se, findAfter)
  {
    found := acc;
    var j := 0;
    while j < |ms|
      invariant 0 <= j <= |ms|
      invariant found == acc + HitsAt(ms[..j], se, findAfter)
    {
      var index := ms[j];
      HitsAtStep(ms, j, se, findAfter);
      if index > se {
        var f := findAfter(index);
        if f.Some? {
          ghost var hits := HitsAt(ms[..j], se, findAfter);
          found := found + [f.value];
          assert found == acc + (hits + [f.value]);
        }
      }
      j := j + 1;
    }
    assert ms[..j] == ms;
  }

  /** No element is listed twice. */
  predicate Distinct<T(==)>(s: seq<T>) {
    forall i, j :: 0 <= i < j < |s| ==> s[i] != s[j]
  }

  lemma {:induction false} HitsAtIff(ms: seq<nat>, se: nat, findAfter: nat -> Option<Found>)
    ensures forall f :: f in HitsAt(ms, se, findAfter) <==> exists m :: m in ms && m > se && findAfter(m) == Some(f)
  {
    if |ms| > 0 {
      var init := ms[..|ms| - 1];
      HitsAtIff(init, se, findAfter);
      assert ms == init + [ms[|ms| - 1]];
      forall f ensures f in HitsAt(ms, se, findAfter) <==> exists m :: m in ms && m > se && findAfter(m) == Some(f) {
        if m :| m in ms && m > se && findAfter(m) == Some(f) {
          if m != ms[|ms| - 1] {
            assert m in init;
          }
        }
      }
    }
  }

  /**
   * A node is a candidate exactly when some searched name matches at an
   * offset strictly after the import's end and the node is what is found
   * there.
   */
  lemma {:induction false} CandidatesIff(code: string, names: seq<string>, se: nat, findAfter: nat -> Option<Found>)
    ensures forall f :: f in Candidates(code, names, se, findAfter) <==>
      exists name, m :: name in names && m in RegexMatches(code, name) && m > se && findAfter(m) == Some(f)
  {
    if |names| > 0 {
      var init := names[..|names| - 1];
      var last := names[|names| - 1];
      CandidatesIff(code, init, se, findAfter);
      var ms := RegexMatches(code, last);
      HitsAtIff(ms, se, findAfter);
      assert names == init + [last];
      forall f ensures f in Candidates(code, names, se, findAfter) <==>
        exists name, m :: name in names && m in RegexMatches(code, name) && m > se && findAfter(m) == Some(f)
      {
        if name, m :| name in names && m in RegexMatches(code, name) && m > se && findAfter(m) == Some(f) {
          if name != last {
            assert name in init;
          }
        }
      }
    }
  }

  /**
   * Two imported names that match at the same offset yield the node found
   * there twice: with `import { logger as lg, logger as lgr }`, the text
   * `;lgr.f()` after the import gives two candidates for one statement.
   */
  lemma SharedMatchFoundTwice(findAfter: nat -> Option<Found>, f: Found)
    requires findAfter(1) == Some(f)
    ensures Candidates(";lgr.f()", ["lg", "lgr"], 0, findAfter) == [f, f]
  {
    ShortNameMatches();
    LongNameMatches();
    var names := ["lg", "lgr"];
    assert names[..1] == ["lg"] && names[..1][..0] == [];
    assert [1][..0] == [];
    assert HitsAt([1], 0, findAfter) == [f];
  }

  /** `lg` is found once in `;lgr.f()`, at 1. */
  lemma ShortNameMatches()
    ensures RegexMatches(";lgr.f()", "lg") == [1]
  {
    var code := ";lgr.f()";
    NoMatchNearEnd(code, "lg", 7);
    FirstCharMismatch(code, "lg", 6);
    FirstCharMismatch(code, "lg", 5);
    FirstCharMismatch(code, "lg", 4);
    FirstCharMismatch(code, "lg", 3);
    FirstCharMismatch(code, "lg", 0);
    assert code[1..3] == "lg";
    assert '$' !in "lg";
  }

  /** `lgr` is found once in `;lgr.f()`, at 1. */
  lemma LongNameMatches()
    ensures RegexMatches(";lgr.f()", "lgr") == [1]
  {
    var code := ";lgr.f()";
    NoMatchNearEnd(code, "lgr", 6);
    FirstCharMismatch(code, "lgr", 5);
    FirstCharMismatch(code, "lgr", 4);
    FirstCharMismatch(code, "lgr", 0);
    assert code[1..4] == "lgr";
    assert '$' !in "lgr";
  }

  // ----- Patching -----

  /** The shape that gets `()`: a call whose callee is a member expression. */
  predicate IsMemberCall(e: Expression) {
    e.kind == CallExpression && e.callee == MemberExpression
  }

  /** The offsets that receive `()`, in the order of the patch loop, or the error the first node without an expression raises. */
  function KeptEnds(found: seq<Found>): Result<seq<nat>, TransformError> {
    if |found| == 0 then Ok([])
    else
      match KeptEnds(found[..|found| - 1])
      case Err(e) => Err(e)
      case Ok(ends) =>
        var f := found[|found| - 1];
        if f.expression.None? then Err(ExpressionMissing(f.id))
        else if IsMemberCall(f.expression.value) then Ok(ends + [f.expression.value.end])
        else Ok(ends)
  }

  /**
   * The patch loop fails exactly when some candidate has no expression;
   * otherwise it keeps exactly the end offsets of the candidates that are
   * member calls, one entry per such candidate.
   */
  lemma {:induction false} KeptEndsIff(found: seq<Found>)
    ensures KeptEnds(found).Err? <==> exists f :: f in found && f.expression.None?
    ensures KeptEnds(found).Err? ==> exists f :: f in found && f.expression.None? && KeptEnds(found).error == ExpressionMissing(f.id)
    ensures KeptEnds(found).Ok? ==>
      |KeptEnds(found).value| == |set k | 0 <= k < |found| && found[k].expression.Some? && IsMemberCall(found[k].expression.value)|
    ensures KeptEnds(found).Ok? ==> forall e :: e in KeptEnds(found).value <==>
      exists f :: f in found && f.expression.Some? && IsMemberCall(f.expression.value) && f.expression.value.end == e
  {
    if |found| > 0 {
      var n := |found| - 1;
      var init := found[..n];
      KeptEndsIff(init);
      assert found == init + [found[n]];
      var before := set k | 0 <= k < n && init[k].expression.Some? && IsMemberCall(init[k].expression.value);
      var after := set k | 0 <= k < |found| && found[k].expression.Some? && IsMemberCall(found[k].expression.value);
      if found[n].expression.Some? && IsMemberCall(found[n].expression.value) {
        assert after == before + {n};
      } else {
        assert after == before;
      }
    }
  }

  /**
   * Each offset is kept as often as kept candidates end there: a candidate
   * listed twice puts its end in twice.
   */
  lemma {:induction false} KeptEndsPerOffset(found: seq<Found>, e: nat)
    ensures KeptEnds(found).Ok? ==> (multiset(KeptEnds(found).value)[e] ==
      |set k | 0 <= k < |found| && found[k].expression.Some? && IsMemberCall(found[k].expression.value) && found[k].expression.value.end == e|)
  {
    if |found| > 0 {
      var n := |found| - 1;
      var init := found[..n];
      KeptEndsPerOffset(init, e);
      assert found == init + [found[n]];
      var before := set k | 0 <= k < n && init[k].expression.Some? && IsMemberCall(init[k].expression.value) && init[k].expression.value.end == e;
      var after := set k | 0 <= k < |found| && found[k].expression.Some? && IsMemberCall(found[k].expression.value) && found[k].expression.value.end == e;
      if found[n].expression.Some? && IsMemberCall(found[n].expression.value) && found[n].expression.value.end == e {
        assert after == before + {n};
      } else {
        assert after == before;
      }
    }
  }

  /** An error in a prefix is the error of the whole loop: the throw ends it. */
  lemma {:induction false} KeptEndsErrorSticks(found: seq<Found>, k: nat)
    requires k <= |found| && KeptEnds(found[..k]).Err?
    ensures KeptEnds(found) == KeptEnds(found[..k])
    decreases |found|
  {
    if k < |found| {
      var init := found[..|found| - 1];
      assert init[..k] == found[..k];
      KeptEndsErrorSticks(init, k);
    } else {
      assert found[..k] == found;
    }
  }

  /** The insertions `prependLeft(e, "()")` leaves for the offsets `ends`, in order. */
  function Pending(ends: seq<nat>, n: nat): (p: seq<string>)
    requires forall k :: 0 <= k < |ends| ==> ends[k] <= n
    ensures |p| == n + 1
  {
    if |ends| == 0 then seq(n + 1, _ => "")
    else
      var p := Pending(ends[..|ends| - 1], n);
      var e := ends[|ends| - 1];
      p[e := "()" + p[e]]
  }

  /** The text after inserting `()` at each offset of `ends`. */
  function Render(code: string, ends: seq<nat>): string
    requires forall k :: 0 <= k < |ends| ==> ends[k] <= |code|
  {
    Interleave(Pending(ends, |code|), code)
  }

  /** How many offsets of `ends` are at most `i`. */
  function CountUpTo(ends: seq<nat>, i: nat): nat {
    if |ends| == 0 then 0
    else CountUpTo(ends[..|ends| - 1], i) + (if ends[|ends| - 1] <= i then 1 else 0)
  }

  lemma {:induction false} PendingLength(ends: seq<nat>, n: nat, i: nat)
    requires forall k :: 0 <= k < |ends| ==> ends[k] <= n
    requires i <= n
    ensures TotalLength(Pending(ends, n)) == 2 * |ends|
    ensures TotalLength(Pending(ends, n)[..i + 1]) == 2 * CountUpTo(ends, i)
  {
    if |ends| == 0 {
      ZeroLength(seq(n + 1, _ => ""));
      ZeroLength(seq(n + 1, _ => "")[..i + 1]);
    } else {
      var init := ends[..|ends| - 1];
      var p := Pending(init, n);
      var e := ends[|ends| - 1];
      PendingLength(init, n, i);
      TotalLengthUpdate(p, e, "()" + p[e]);
      if e <= i {
        assert p[e := "()" + p[e]][..i + 1] == p[..i + 1][e := "()" + p[e]];
        TotalLengthUpdate(p[..i + 1], e, "()" + p[e]);
      } else {
        assert p[e := "()" + p[e]][..i + 1] == p[..i + 1];
      }
    }
  }

  lemma {:induction false} ZeroLength(xs: seq<string>)
    requires forall k :: 0 <= k < |xs| ==> xs[k] == ""
    ensures TotalLength(xs) == 0
  {
    if |xs| > 0 {
      ZeroLength(xs[1..]);
    }
  }

  /**
   * Inserting `()` at the offsets `ends` grows the text by two characters
   * per offset, and original character `i` moves right by two for every
   * offset at or before it: deleting the insertions gives back the code.
   */
  lemma RenderIsInsertion(code: string, ends: seq<nat>)
    requires forall k :: 0 <= k < |ends| ==> ends[k] <= |code|
    ensures |Render(code, ends)| == |code| + 2 * |ends|
    ensures forall i :: 0 <= i < |code| ==>
      i + 2 * CountUpTo(ends, i) < |Render(code, ends)| && Render(code, ends)[i + 2 * CountUpTo(ends, i)] == code[i]
  {
    var p := Pending(ends, |code|);
    InterleaveLength(p, code);
    PendingLength(ends, |code|, 0);
    forall i | 0 <= i < |code|
      ensures i + 2 * CountUpTo(ends, i) < |Render(code, ends)| && Render(code, ends)[i + 2 * CountUpTo(ends, i)] == code[i]
    {
      PendingLength(ends, |code|, i);
      InterleaveKeepsText(p, code, i);
    }
  }

  /** No offsets: the code is unchanged. */
  lemma RenderNothing(code: string)
    ensures Render(code, []) == code
  {
    InterleaveNone(Pending([], |code|), code);
  }

  /** One offset: the call `f(...)` ending at `e` becomes `f(...)()`. */
  lemma RenderOne(code: string, e: nat)
    requires e <= |code|
    ensures Render(code, [e]) == code[..e] + "()" + code[e..]
  {
    assert [e][..0] == [];
    var empty := seq(|code| + 1, _ => "");
    assert Pending([], |code|) == empty;
    assert "()" + empty[e] == "()";
    assert Pending([e], |code|) == empty[e := "()"];
    InterleaveOne(code, e, "()");
  }

  /** A member call found twice gets `()` twice: `f(...)` becomes `f(...)()()`. */
  lemma DuplicateCandidatePatchedTwice(code: string, f: Found)
    requires f.expression.Some? && IsMemberCall(f.expression.value) && f.expression.value.end <= |code|
    ensures var e := f.expression.value.end;
      KeptEnds([f, f]) == Ok([e, e]) && Render(code, [e, e]) == code[..e] + "()()" + code[e..]
  {
    var e := f.expression.value.end;
    assert [f, f][..1] == [f] && [f][..0] == [];
    assert [e, e][..1] == [e] && [e][..0] == [];
    var empty := seq(|code| + 1, _ => "");
    var none: seq<nat> := [];
    assert KeptEnds([f][..0]) == Ok(none);
    assert none + [e] == [e] && [e] + [e] == [e, e];
    assert KeptEnds([f]) == Ok([e]);
    assert Pending([], |code|) == empty;
    assert empty[e] == "" && "()" + empty[e] == "()";
    var once := empty[e := "()"];
    assert Pending([e], |code|) == once;
    assert "()" + once[e] == "()()";
    assert once[e := "()()"] == empty[e := "()()"];
    assert Pending([e, e], |code|) == empty[e := "()()"];
    InterleaveOne(code, e, "()()");
  }

  /** The patch loop over a MagicString buffer; it throws at the first candidate without an expression. */
  method PatchCalls(code: string, found: seq<Found>) returns (r: Result<string, TransformError>)
    requires forall f :: f in found && f.expression.Some? ==> f.expression.value.end <= |code|
    ensures KeptEnds(found).Err? ==> r == Err(KeptEnds(found).error)
    ensures KeptEnds(found).Ok? ==> KeptEndsWithin(found, |code|) && r == Ok(Render(code, KeptEnds(found).value))
  {
    var magic := new MagicString(code);
    var k := 0;
    while k < |found|
      invariant 0 <= k <= |found|
      invariant magic.Valid() && magic.original == code
      invariant KeptEnds(found[..k]).Ok? && KeptEndsWithin(found[..k], |code|)
      invariant magic.pending == Pending(KeptEnds(found[..k]).value, |code|)
    {
      var f := found[k];
      assert found[..k + 1][..k] == found[..k];
      assert found[..k + 1][k] == f;
      if f.expression.None? {
        KeptEndsErrorSticks(found, k + 1);
        return Err(ExpressionMissing(f.id));
      }
      if IsMemberCall(f.expression.value) {
        magic.PrependLeft(f.expression.value.end, "()");
      }
      k := k + 1;
    }
    assert found[..k] == found;
    r := Ok(magic.ToString());
  }

  /** The kept offsets lie within a text of length `n`. */
  predicate KeptEndsWithin(found: seq<Found>, n: nat) {
    KeptEnds(found).Ok? ==> forall k :: 0 <= k < |KeptEnds(found).value| ==> KeptEnds(found).value[k] <= n
  }

  /** Offsets of kept candidates come from the candidates themselves. */
  lemma KeptEndsBounded(found: seq<Found>, n: nat)
    requires forall f :: f in found && f.expression.Some? ==> f.expression.value.end <= n
    ensures KeptEndsWithin(found, n)
  {
    KeptEndsIff(found);
    if KeptEnds(found).Ok? {
      forall k | 0 <= k < |KeptEnds(found).value| ensures KeptEnds(found).value[k] <= n {
        assert KeptEnds(found).value[k] in KeptEnds(found).value;
      }
    }
  }

  // ----- The transform -----

  /** The specification of `transform`. */
  function TransformSpec(h: Host, path: string, code: string): Result<Output, TransformError>
    requires EndsWithin(h, code)
  {
    if h.lexed.None? then Err(LexError)
    else
      match SelectImport(h, path, h.lexed.value)
      case None => Ok(Unchanged(code))
      case Some(imp) =>
        if !h.parses then Err(ParseError)
        else
          match h.findAround(imp.ss)
          case None => Ok(Unchanged(code))
          case Some(clauses) =>
            var found := Candidates(code, Specifiers(clauses), imp.se, h.findAfter);
            if |found| == 0 then Ok(Unchanged(code))
            else
              CandidatesWithin(h, code, Specifiers(clauses), imp.se);
              KeptEndsBounded(found, |code|);
              match KeptEnds(found)
              case Err(e) => Err(e)
              case Ok(ends) => Ok(Rewritten(Render(code, ends)))
  }

  /** Every candidate is something the parser found, so its offsets lie within the code. */
  lemma CandidatesWithin(h: Host, code: string, names: seq<string>, se: nat)
    requires EndsWithin(h, code)
    ensures forall f :: f in Candidates(code, names, se, h.findAfter) && f.expression.Some? ==> f.expression.value.end <= |code|
  {
    CandidatesIff(code, names, se, h.findAfter);
  }

  /** `transform(code, id)`. */
  method Transform(h: Host, path: string, code: string) returns (r: Result<Output, TransformError>)
    requires EndsWithin(h, code)
    ensures r == TransformSpec(h, path, code)
  {
    if h.lexed.None? {
      return Err(LexError);
    }
    var loggerImport := FindLoggerImport(h, path, h.lexed.value);
    if loggerImport.None? {
      return Ok(Unchanged(code));
    }
    if !h.parses {
      return Err(ParseError);
    }
    var loggerNode := h.findAround(loggerImport.value.ss);
    if loggerNode.None? {
      return Ok(Unchanged(code));
    }
    var names := CollectSpecifiers(loggerNode.value);
    var found := FindCandidates(code, names, loggerImport.value.se, h.findAfter);
    if |found| == 0 {
      return Ok(Unchanged(code));
    }
    CandidatesWithin(h, code, names, loggerImport.value.se);
    var patched := PatchCalls(code, found);
    match patched
    case Err(e) => r := Err(e);
    case Ok(text) => r := Ok(Rewritten(text));
  }

  // ----- Properties of the transform -----

  /** The three early exits return the code as it is: no logger import, no node around it, no candidate. */
  lemma EarlyExitsReturnCode(h: Host, path: string, code: string)
    requires EndsWithin(h, code) && h.lexed.Some?
    requires var sel := SelectImport(h, path, h.lexed.value);
      || sel.None?
      || (h.parses && h.findAround(sel.value.ss).None?)
      || (h.parses && h.findAround(sel.value.ss).Some? &&
          Candidates(code, Specifiers(h.findAround(sel.value.ss).value), sel.value.se, h.findAfter) == [])
    ensures TransformSpec(h, path, code) == Ok(Unchanged(code))
  {
  }

  /**
   * Whatever `transform` returns without throwing is the code with `()`
   * inserted at offsets within it: none when it returns the code itself,
   * one per kept candidate otherwise.
   */
  lemma OutputIsInsertion(h: Host, path: string, code: string)
    requires EndsWithin(h, code) && TransformSpec(h, path, code).Ok?
    ensures exists ends: seq<nat> ::
      (forall k :: 0 <= k < |ends| ==> ends[k] <= |code|) &&
      TransformSpec(h, path, code).value.code == Render(code, ends)
  {
    var out := TransformSpec(h, path, code).value;
    if out.Unchanged? {
      RenderNothing(code);
      assert out.code == Render(code, []);
    } else {
      var imp := SelectImport(h, path, h.lexed.value).value;
      var clauses := h.findAround(imp.ss).value;
      var found := Candidates(code, Specifiers(clauses), imp.se, h.findAfter);
      CandidatesWithin(h, code, Specifiers(clauses), imp.se);
      KeptEndsBounded(found, |code|);
      var ends := KeptEnds(found).value;
      assert out.code == Render(code, ends);
    }
  }

  /** A candidate without an expression is the only way a parsed file fails; it makes the whole transform throw. */
  lemma FailureOnlyFromMissingExpression(h: Host, path: string, code: string)
    requires EndsWithin(h, code) && TransformSpec(h, path, code).Err?
    ensures var e := TransformSpec(h, path, code).error;
      || (e == LexError && h.lexed.None?)
      || (e == ParseError && !h.parses)
      || (e.ExpressionMissing? && exists m: nat :: h.findAfter(m) == Some(Found(e.id, None)))
  {
    var e := TransformSpec(h, path, code).error;
    if e.ExpressionMissing? {
      assert h.lexed.Some? && SelectImport(h, path, h.lexed.value).Some?;
      var imp := SelectImport(h, path, h.lexed.value).value;
      assert h.parses && h.findAround(imp.ss).Some?;
      var clauses := h.findAround(imp.ss).value;
      var found := Candidates(code, Specifiers(clauses), imp.se, h.findAfter);
      assert KeptEnds(found) == Err(e);
      KeptEndsIff(found);
      CandidatesIff(code, Specifiers(clauses), imp.se, h.findAfter);
      var f :| f in found && f.expression.None? && e == ExpressionMissing(f.id);
      var name, m :| name in Specifiers(clauses) && m in RegexMatches(code, name) && m > imp.se && h.findAfter(m) == Some(f);
      assert f == Found(e.id, None);
      var at: nat := m;
      assert h.findAfter(at) == Some(Found(e.id, None));
    } else if h.lexed.Some? && SelectImport(h, path, h.lexed.value).Some? && h.parses {
      var imp := SelectImport(h, path, h.lexed.value).value;
      var clauses := h.findAround(imp.ss).value;
      KeptEndsIff(Candidates(code, Specifiers(clauses), imp.se, h.findAfter));
    }
  }
}

=== FILE: magic_text.dfy ===
/**
 * The part of a MagicString buffer the transform uses: insertions before
 * offsets of the original text (`prependLeft`) and the rendered text
 * (`toString`). Source-map generation is not modelled; the offset each
 * original character moves to is.
 */
module MagicText {

  /** The text made of `pending[0]`, `text[0]`, `pending[1]`, ..., `text[n - 1]`, `pending[n]`. */
  function Interleave(pending: seq<string>, text: string): string
    requires |pending| == |text| + 1
    decreases |text|
  {
    if |text| == 0 then pending[0] else pending[0] + [text[0]] + Interleave(pending[1..], text[1..])
  }

  /** Total length of a list of strings. */
  function TotalLength(xs: seq<string>): nat {
    if |xs| == 0 then 0 else |xs[0]| + TotalLength(xs[1..])
  }

  lemma {:induction false} TotalLengthAppend(xs: seq<string>, ys: seq<string>)
    ensures TotalLength(xs + ys) == TotalLength(xs) + TotalLength(ys)
  {
    if |xs| == 0 {
      assert xs + ys == ys;
    } else {
      assert (xs + ys)[1..] == xs[1..] + ys;
      TotalLengthAppend(xs[1..], ys);
    }
  }

  /** Replacing one entry changes the total by the difference of the lengths. */
  lemma {:induction false} TotalLengthUpdate(xs: seq<string>, i: nat, x: string)
    requires i < |xs|
    ensures TotalLength(xs[i := x]) == TotalLength(xs) - |xs[i]| + |x|
  {
    if i == 0 {
      assert xs[i := x][1..] == xs[1..];
    } else {
      assert xs[i := x][1..] == xs[1..][i - 1 := x];
      TotalLengthUpdate(xs[1..], i - 1, x);
    }
  }

  /** The rendered text is the original plus everything inserted. */
  lemma {:induction false} InterleaveLength(pending: seq<string>, text: string)
    requires |pending| == |text| + 1
    ensures |Interleave(pending, text)| == |text| + TotalLength(pending)
    decreases |text|
  {
    if |text| > 0 {
      InterleaveLength(pending[1..], text[1..]);
    } else {
      assert pending[1..] == [];
    }
  }

  /** Original character `i` moves right by exactly the length of what was inserted at offsets `0..i`. */
  lemma {:induction false} InterleaveKeepsText(pending: seq<string>, text: string, i: nat)
    requires |pending| == |text| + 1 && i < |text|
    ensures TotalLength(pending[..i + 1]) + i < |Interleave(pending, text)|
    ensures Interleave(pending, text)[i + TotalLength(pending[..i + 1])] == text[i]
    decreases |text|
  {
    InterleaveLength(pending, text);
    assert pending == pending[..i + 1] + pending[i + 1..];
    TotalLengthAppend(pending[..i + 1], pending[i + 1..]);
    var head := pending[0] + [text[0]];
    var tail := Interleave(pending[1..], text[1..]);
    assert Interleave(pending, text) == head + tail;
    if i == 0 {
      assert pending[..1] == [pending[0]];
      assert TotalLength(pending[..1]) == |pending[0]| by {
        assert pending[..1][1..] == [];
      }
    } else {
      InterleaveKeepsText(pending[1..], text[1..], i - 1);
      assert pending[..i + 1][1..] == pending[1..][..i];
      assert TotalLength(pending[..i + 1]) == |pending[0]| + TotalLength(pending[1..][..i]);
    }
  }

  /**
   * Prepending `x` at offset `e` splices `x` into the rendered text just
   * before everything already inserted there: at original offset `e` plus
   * the length of what was inserted at the offsets before `e`.
   */
  lemma {:induction false} InterleaveSplice(pending: seq<string>, text: string, e: nat, x: string)
    requires |pending| == |text| + 1 && e <= |text|
    ensures var r := Interleave(pending, text);
      var at := e + TotalLength(pending[..e]);
      at <= |r| && Interleave(pending[e := x + pending[e]], text) == r[..at] + x + r[at..]
    decreases |text|, 2
  {
    if e == 0 {
      SpliceFront(pending, text, x);
    } else {
      SpliceLater(pending, text, e, x);
    }
  }

  /** Offset 0: the content goes in front of the whole rendered text. */
  lemma SpliceFront(pending: seq<string>, text: string, x: string)
    requires |pending| == |text| + 1
    ensures Interleave(pending[0 := x + pending[0]], text) == x + Interleave(pending, text)
  {
    if |text| > 0 {
      assert pending[0 := x + pending[0]][1..] == pending[1..];
    }
  }

  /** A later offset: the splice happens inside the rendering of the text after the first character. */
  lemma {:induction false} SpliceLater(pending: seq<string>, text: string, e: nat, x: string)
    requires |pending| == |text| + 1 && 0 < e <= |text|
    ensures var r := Interleave(pending, text);
      var at := e + TotalLength(pending[..e]);
      at <= |r| && Interleave(pending[e := x + pending[e]], text) == r[..at] + x + r[at..]
    decreases |text|, 1
  {
    var p' := pending[e := x + pending[e]];
    var rest := Interleave(pending[1..], text[1..]);
    assert p'[1..] == pending[1..][e - 1 := x + pending[1..][e - 1]];
    InterleaveSplice(pending[1..], text[1..], e - 1, x);
    assert pending[..e][1..] == pending[1..][..e - 1];
    assert TotalLength(pending[..e]) == |pending[0]| + TotalLength(pending[1..][..e - 1]);
    var head := pending[0] + [text[0]];
    var at' := e - 1 + TotalLength(pending[1..][..e - 1]);
    assert Interleave(pending, text) == head + rest;
    assert Interleave(p', text) == head + (rest[..at'] + x + rest[at'..]);
    assert (head + rest)[..|head| + at'] == head + rest[..at'];
    assert (head + rest)[|head| + at'..] == rest[at'..];
  }

  /** With a single non-empty entry, the rendered text is the original with that entry spliced in. */
  lemma {:induction false} InterleaveOne(text: string, e: nat, x: string)
    requires e <= |text|
    ensures Interleave(seq(|text| + 1, _ => "")[e := x], text) == text[..e] + x + text[e..]
    decreases |text|
  {
    var pending := seq(|text| + 1, _ => "")[e := x];
    if |text| == 0 {
    } else if e == 0 {
      assert pending[1..] == seq(|text|, _ => "");
      InterleaveNone(seq(|text|, _ => ""), text[1..]);
      assert text == [text[0]] + text[1..];
    } else {
      assert pending[1..] == seq(|text[1..]| + 1, _ => "")[e - 1 := x];
      InterleaveOne(text[1..], e - 1, x);
      assert text[..e] == [text[0]] + text[1..][..e - 1];
      assert text[e..] == text[1..][e - 1..];
    }
  }

  /** Nothing inserted: the rendered text is the original. */
  lemma {:induction false} InterleaveNone(pending: seq<string>, text: string)
    requires |pending| == |text| + 1
    requires forall i :: 0 <= i < |pending| ==> pending[i] == ""
    ensures Interleave(pending, text) == text
    decreases |text|
  {
    if |text| > 0 {
      InterleaveNone(pending[1..], text[1..]);
      assert text == [text[0]] + text[1..];
    }
  }

  /** A MagicString over `original`: `pending[i]` is the text inserted before original offset `i`. */
  class MagicString {
    const original: string
    var pending: seq<string>

    ghost predicate Valid()
      reads this
    {
      |pending| == |original| + 1
    }

    constructor (code: string)
      ensures Valid() && original == code
      ensures pending == seq(|code| + 1, _ => "")
    {
      original := code;
      pending := seq(|code| + 1, _ => "");
    }

    /** `prependLeft(index, content)`: `content` goes before whatever was already inserted at `index`. */
    method PrependLeft(index: nat, content: string)
      requires Valid() && index <= |original|
      modifies this
      ensures Valid()
      ensures pending == old(pending)[index := content + old(pending)[index]]
      ensures var at := index + TotalLength(old(pending)[..index]);
        at <= |old(ToString())| && ToString() == old(ToString())[..at] + content + old(ToString())[at..]
    {
      InterleaveSplice(pending, original, index, content);
      pending := pending[index := content + pending[index]];
    }

    /** `toString()`: the original with every insertion in place; its length is the original's plus the inserted text's. */
    function ToString(): (r: string)
      reads this
      requires Valid()
      ensures |r| == |original| + TotalLength(pending)
    {
      InterleaveLength(pending, original);
      Interleave(pending, original)
    }
  }
}

=== FILE: wrappers.dfy ===
/** Optional values and results with an error, shared by every module of the model. */
module Wrappers {

  /** A value that may be absent (`undefined` / `null` on the JavaScript side). */
  datatype Option<+T> = None | Some(value: T)

  /** A computation that either yields a value or throws the given error. */
  datatype Result<+T, +E> = Ok(value: T) | Err(error: E)
}
